=== FILE: README.md ===
# Location sharing app — a Dafny model of its logic

The app is a single browser page. It asks the browser for the user's
position. It shows the position as decimal degrees, as
degrees/minutes/seconds (DMS) and on a Leaflet map. It can share the
position or copy one of the fields. All of this lives in `script.js`, in the
class `LocationApp` and a few free functions.

This project models the parts of that code that make decisions:

- `Coordinates` (coordinates.dfy): `decimalToDMS`, the conversion of a
  signed decimal-degree value into whole degrees, whole minutes, seconds
  rounded to two decimals, and a hemisphere letter. The letters are N/S for
  the tag `"lat"` and O/W (Ost/West) for any other tag. The result is a
  record `DMS(degrees, minutes, seconds, dir)`, not the rendered text.
  Arithmetic is over exact reals. `Math.floor` is `.Floor`. `Math.round(y)`
  is `(y + 0.5).Floor`, which is JavaScript's round-half-up.
- `Geolocation` (geolocation.dfy): the guard of `getCurrentLocation`, the
  options of the position request, and the mapping from an error code to
  the German message in `onLocationError`. Codes 1, 2 and 3 are the
  PERMISSION_DENIED, POSITION_UNAVAILABLE and TIMEOUT constants of the W3C
  Geolocation API.
- `Accuracy` (accuracy.dfy): the What3Words hint chosen from the accuracy
  radius in `displayLocation`, and the rule in `updateMap` that decides
  whether an accuracy circle is drawn.
- `App` (app.dfy): the state of a `LocationApp` object and its handlers.
  The state is `AppState(location, mapVisible, hasMap, circles)`. The page
  and the Leaflet library are a `Host` parameter: which elements exist,
  whether Leaflet has loaded, whether creating a map succeeds. The callbacks
  the code schedules with `setTimeout` are separate functions
  (`ShowDelayElapsed`, `DisplayDelayElapsed`) for the caller to apply.
- `Sharing` (sharing.dfy): the fallback chains. Sharing goes native share
  sheet → clipboard → modal. Copying goes clipboard API →
  `document.execCommand('copy')`. Which browser APIs exist, and how their
  promises end, are parameters.
- `Events` (events.dfy): the app as an event-driven machine. Every
  callback and click that reads or changes the app state is one `Event`.
  The copy buttons and the promise callbacks of sharing and copying do
  neither, and are modelled as outcomes in `Sharing`. The location-button click is not an event: it only issues the
  request of `Geolocation.RequestLocation` and changes no state. `Run`
  applies a sequence of events in order. Lemmas over all such sequences
  state what holds whatever order the browser delivers the callbacks in.
- `Optional` (optional.dfy): `Option`, standing for a JavaScript `null`.

Behaviour kept as written:

- Seconds that round up to 60 are not carried into the minutes. So
  `DMS(0, 0, 60.0, N)` is a possible reading, which the page prints as
  `0° 0' 60" N` (`SecondsReachSixty`, `SecondsSixtyExactly`).
- A call of `updateMap` that finds a map and a reading, with an accuracy
  in (0, 1000), adds a new circle. It never removes the old ones
  (`CirclesAccumulate`).
- A failed native share is only logged. It does not fall back to the
  clipboard (`NoFallbackAfterShareSheet`).
- The callback scheduled by showing the map is never cancelled. If the map
  was hidden again before the callback ran and a reading exists, the
  callback builds a map and shows it again (`LateShowCallbackShowsMap`).
  Without a reading it still builds a map, but leaves it behind the hidden
  container.

Facts about the code that a reader might not expect:

- The reconstruction tolerance of the DMS conversion is 0.005/3600 degrees.
- Every axis tag other than `"lat"` gets the O/W letters.
- Copying a field falls back to the document's copy command and then to an
  alert, never to the modal. Only sharing falls back to the modal.

## Model

| member | source | states |
|---|---|---|
| Coordinates.DecimalToDMS | script.js:117-132 | Degrees is the whole part of abs(decimal) and is never negative. Minutes is the whole number of minutes in the remainder, so it lies in 0..59. Seconds has two decimals and lies in [0, 60], with 60 allowed because there is no carry. The letter belongs to the axis and is S/W exactly when the input is negative, so zero gets N/O. |
| Coordinates.Round | script.js:100 | `Math.round` returns the integer within half a unit of its argument, with half-way cases rounded up. |
| Coordinates.RoundHundredths | script.js:122 | `Math.round(y*100)/100` has at most two decimals and lies in (y - 0.005, y + 0.005]. |
| Coordinates.ExactDecomposition | script.js:118-122 | abs(decimal) is exactly degrees + minutes/60 + unrounded seconds/3600. The rounded seconds lie within 0.005 of the unrounded ones. |
| Coordinates.AxisOnlyChoosesLetters | script.js:124-129 | The axis tag affects only the hemisphere letter, never degrees, minutes or seconds. |
| Coordinates.MagnitudeWithinTolerance | script.js:118-122 | degrees + minutes/60 + seconds/3600 is within 0.005/3600 degrees of abs(decimal), for every input. |
| Coordinates.SignedValueWithinTolerance | script.js:117-131 | The components, signed by the hemisphere letter (S/W negative), give back the input within 0.005/3600 degrees. |
| Coordinates.MirrorImage | script.js:118-131 | For x > 0, x and -x have the same degrees, minutes and seconds. x gets the positive letter and -x the negative one. |
| Coordinates.RoundTrip | script.js:117-132 | Every canonical reading is reproduced exactly when its signed value is converted back. A canonical reading has minutes 0..59, seconds below 60 with two decimals, letters of its axis, and no S/W on a zero angle. |
| Coordinates.SecondsReachSixty | script.js:122 | An input 59.996 arc seconds past a whole minute gives DMS(0, 0, 60.0, N), because seconds are not renormalised into minutes. |
| Coordinates.SecondsSixtyExactly | script.js:120-122 | For every input and tag, seconds come out as 60 exactly when the unrounded seconds are 59.995 or more. |
| Coordinates.Examples | script.js:117-131 | 52.5 → DMS(52, 30, 0.0, N), -52.5 → DMS(52, 30, 0.0, S), 13.405 with "lng" → DMS(13, 24, 18.0, O), and 0 → DMS(0, 0, 0.0, N). |
| Geolocation.RequestLocation | script.js:24-42 | Without a geolocation provider only the "not supported" message results. Otherwise exactly one request is made: high accuracy, a 10 000 ms timeout, maximum age 0. |
| Geolocation.KindOfCodeSpec | script.js:60-73 | Each known code selects the kind whose code it is. Exactly the codes other than 1, 2 and 3 select the unknown-error message. |
| Geolocation.CodeOfKindRoundTrip | script.js:60-69 | The code of each known kind selects that kind again. |
| Geolocation.ErrorMessage | script.js:57-75 | Every error message starts with the fixed prefix and adds a non-empty reason. |
| Geolocation.ReasonsDistinct | script.js:60-73 | The four reason texts are pairwise different. |
| Geolocation.ErrorMessageDistinguishesKinds | script.js:58-75 | Two error codes produce the same message exactly when they fall into the same case of the switch. |
| Accuracy.What3WordsHint | script.js:98-103 | The "too imprecise" hint appears exactly when accuracy > 100. It then shows the radius rounded to whole metres, which is at least 100 and within half a metre. Otherwise the app advice appears. |
| Accuracy.CircleRule | script.js:311 | For a non-negative radius, the circle is drawn exactly when 0 < accuracy < 1000. A radius of 0 is falsy, so it draws nothing. |
| Accuracy.HintMonotone | script.js:98-103 | A larger radius never turns "too imprecise" back into the app advice, and its rounded metres do not decrease. |
| Accuracy.HintAndCircle | script.js:98-103 | Between 100 and 1000 m both the "too imprecise" hint and a circle appear. From 1000 m on there is the hint and no circle. In (0, 100] there is the app advice and a circle. |
| App.InitialInvariant | script.js:2-8 | A new app has no reading, shows the map, and satisfies the invariant: a hidden map has been removed, and without a map there are no circles. |
| App.InitMap | script.js:235-283 | It schedules a retry, leaving the state alone, exactly when the container or Leaflet is missing. It installs a fresh map with no circles exactly when creation succeeds. A failed creation leaves the state unchanged. |
| App.ToggleMap | script.js:341-370 | With both elements present it flips `mapVisible` and keeps the reading. Hiding also removes the map and its circles. Showing keeps the map handle. With an element missing nothing changes. |
| App.HideThenShow | script.js:347-360 | Hiding then showing restores the shown flag but leaves no map. |
| App.ShowThenHide | script.js:347-360 | In a consistent hidden state, showing then hiding gives the same state back. |
| App.UpdateMap | script.js:285-325 | Without a map or a reading nothing changes. With both, the map stays and exactly one circle is added when 0 < accuracy < 1000 (none otherwise). The map ends up shown if it was shown, or if it was hidden and both toggle elements exist. The reading never changes. |
| App.UpdateMapAddsOneCircle | script.js:310-324 | In a consistent state with a map and a reading, updateMap keeps the map and its visibility. It adds exactly one circle when the accuracy rule allows one, and none otherwise. |
| App.CirclesAccumulate | script.js:310-319 | Two updates with a radius in (0, 1000) leave two more circles, because old circles are never removed. |
| App.ShowDelayElapsed | script.js:362-368 | The callback scheduled by showing keeps the reading and never hides a shown map. It yields a map whenever creation succeeds. When creation succeeds and a reading exists, the fresh map carries exactly the one circle the accuracy rule allows (none otherwise), and it ends up shown if it was shown or the toggle button exists. When creation succeeds without a reading, the result is a fresh map with no circles and the visibility flag as it was. When creation fails or is retried, the callback is exactly updateMap on the state as it was, old map included. |
| App.LateShowCallbackShowsMap | script.js:362-368 | If the map was hidden again before the show callback runs and a reading exists, the callback builds a map and shows it again (given a working page). |
| App.OnLocationSuccess | script.js:45-55 | The new reading replaces the previous one. The map fields are untouched until the scheduled update runs. |
| App.DisplayDelayElapsed | script.js:109-114 | The update scheduled after a new reading has the same effect as updateMap: nothing without a map or a reading, otherwise the circle rule and showing a hidden map. It never changes the reading. |
| App.OnLocationError | script.js:57-77 | A location error keeps the whole state, including the previous reading. It shows the message that the error mapping gives for the code, which starts with the error prefix. |
| App.DisplayLocation | script.js:79-103 | Each shown coordinate is a decimalToDMS reading of it: whole degrees of the absolute value, the whole minutes of the remainder (0..59, never carried into), seconds with two decimals in [0, 60], and N/S for latitude and O/W for longitude, chosen by sign. Each gives back its coordinate within 0.005/3600 degrees. The hint is "too imprecise" exactly when accuracy > 100, and then shows the radius to within half a metre. |
| App.CenterMap | script.js:327-339 | It centres exactly when both a map and a reading exist, on the reading at zoom 15. Otherwise it shows the "no location" message. |
| App.HandlersKeepInvariant | script.js:341-370 | toggleMap, updateMap and both location callbacks keep the invariant. So do initMap and the show callback when the map is shown. |
| Events.Step | script.js:10-42 | A successful location callback sets the current reading. Every other event leaves the reading as it was. |
| Events.StepKeepsNoOrphanCircles | script.js:285-325 | No single event leaves accuracy circles behind without a map. |
| Events.Run | script.js:10-42 | After any sequence of events, an existing reading is still there, and there are still no circles without a map. |
| Events.CurrentReadingIsLatest | script.js:45-77 | After any sequence of events, the current reading is the one from the last successful location callback, or the initial one if there was none. Errors, clicks and timers never replace or clear it. |
| Events.RunKeepsInvariant | script.js:341-370 | If maps are only built while the map is shown, a hidden map stays removed through any sequence of events. |
| Events.LateCallbackBreaksDiscipline | script.js:362-368 | Hide, show, hide, then the pending show callback: the map ends up built and shown although the user's last action hid it. |
| Events.LateCallbackWithoutReadingBreaksInvariant | script.js:362-368 | The same trace from the initial state, which has no reading, ends with a map behind a hidden container. The invariant breaks, so RunKeepsInvariant needs its discipline. |
| Sharing.ShareRoute | script.js:169-192 | The native share sheet is used exactly when present. The clipboard is used exactly when the share sheet is missing and the clipboard exists. The modal is used exactly when both are missing. |
| Sharing.ShareDataOf | script.js:137-167 | The shared message has the fixed title and the current reading. Its DMS parts are decimalToDMS readings of the coordinates (whole degrees, the whole minutes of the remainder, two-decimal seconds in [0, 60], the axis letter chosen by sign), and each gives back its coordinate within 0.005/3600 degrees. Its accuracy is rounded to within half a metre. |
| Sharing.ShareLocation | script.js:134-192 | Without a reading nothing is shared. Every delivery carries the message built from the current reading. With a share sheet, success gives "shared" and failure a logged rejection. Without one, a successful clipboard write gives the copied alert, and otherwise the modal appears. |
| Sharing.ModalIsLastResort | script.js:169-192 | The modal appears exactly when there is a reading, no share sheet, and the clipboard is missing or its write fails. |
| Sharing.NoFallbackAfterShareSheet | script.js:169-172 | With a share sheet the outcome is "shared" or a logged rejection, never the clipboard or the modal. |
| Sharing.SameMessageOnEveryPath | script.js:164-192 | Whatever the capabilities and outcomes, the same message is delivered. |
| Sharing.ShareFromState | script.js:134-135 | shareLocation does nothing without a current reading. With one it always delivers that reading. |
| Sharing.TextToCopy | script.js:389-398 | The Google Maps field copies its link's address when there is a link. Every other case copies the element's text. |
| Sharing.FallbackCopy | script.js:414-434 | The copy command confirms exactly when it returns true, and only then with the given text. It alerts "failed" exactly when it returns false and "not possible" when it throws. |
| Sharing.CopyToClipboard | script.js:389-412 | A confirmed copy always carries the text chosen for the element. When the clipboard is missing or its write fails, the "failed" alert appears exactly when the copy command returns false, and the "not possible" alert exactly when it throws. |
| Sharing.CopyConfirmedIff | script.js:400-431 | A copy is confirmed exactly when the clipboard write succeeds or the copy command succeeds. The copy command is not consulted once the clipboard write succeeded. |

## Left out

- Text rendering is not modelled: `toFixed(6)`, the template strings, the
  Google Maps URL, the share text and the popup HTML. Results are
  structured values. The exact decimal printing of doubles is not a
  property of the logic.
- IEEE-754 doubles are replaced by exact reals. Rounding artefacts are not
  modelled, nor is a NaN accuracy, which is falsy like 0.
- The DOM, CSS, the modal, alerts, the copy feedback, `showError`,
  `hideError`, `resetButton` and `showMapError` are not modelled. They are
  presentation with no decision in them.
- The Leaflet calls are not modelled: `setView`, markers, popups,
  `invalidateSize`, `remove`, the tile layer. The model keeps only whether
  a map exists and how many circles it carries. The marker handle is left
  out. `updateMap` reads it only to remove the old marker from the map, and
  `centerMap` only to open its popup. Neither read changes a modelled field.
- The `setTimeout` delays are left out. The scheduled callbacks are
  separate functions. The repeated retry of `initMap` is not modelled:
  `InitMap` is one attempt, and `RetryLater` stands for "called again
  later". Timing is outside sequential logic.
- App.InitMap: a failed creation leaves the state unchanged. When an old
  map existed, the source has already removed it but keeps the stale
  handle. The model does not tell a removed map from a live one.
- Overlapping geolocation requests are not told apart: an event does not
  record which request it answers. `Events.CurrentReadingIsLatest` shows
  that the last callback to arrive wins, even when it answers an older
  request, because the code has no guard against this.
- The geolocation, clipboard, share and `execCommand` calls themselves are
  left out. They are foreign asynchronous APIs, so only their presence and
  how they end are parameters.
- The DOMContentLoaded wiring and the button listeners in `init` are left
  out. They only connect clicks to the handlers modelled above.
- The theme preference is not modelled. It is not part of `script.js`.

=== FILE: accuracy.dfy ===
/**
 The two decisions the app derives from the accuracy radius (in metres) of a
 location reading: which What3Words hint to show (displayLocation) and
 whether an accuracy circle is drawn on the map (updateMap).
 */
module Accuracy {
  import Coordinates

  /** Above this radius the app calls the reading too imprecise for What3Words. */
  const HintThreshold: real := 100.0
  /** From this radius on no circle is drawn. */
  const CircleLimit: real := 1000.0

  /** The What3Words line: either "too imprecise" with the radius rounded to
      whole metres, or the advice to use the What3Words app. */
  datatype Hint = TooImprecise(meters: int) | UseApp

  function What3WordsHint(accuracy: real): (h: Hint)
    ensures h.TooImprecise? <==> accuracy > HintThreshold
    ensures h.TooImprecise? ==> h.meters >= 100
    ensures h.TooImprecise? ==> accuracy - 0.5 < h.meters as real <= accuracy + 0.5
  {
    if accuracy > HintThreshold then TooImprecise(Coordinates.Round(accuracy)) else UseApp
  }

  /** `accuracy && accuracy < 1000`: a radius of 0 is falsy in the source,
      so it draws no circle. */
  predicate DrawsCircle(accuracy: real) {
    accuracy != 0.0 && accuracy < CircleLimit
  }

  /** For the non-negative radii a geolocation provider reports, the circle is
      drawn exactly on the open interval (0, 1000). */
  lemma CircleRule(accuracy: real)
    requires accuracy >= 0.0
    ensures DrawsCircle(accuracy) <==> 0.0 < accuracy < CircleLimit
  {
  }

  /** A coarser reading is never more eligible for What3Words. */
  lemma HintMonotone(a: real, b: real)
    requires a <= b
    ensures What3WordsHint(a).TooImprecise? ==> What3WordsHint(b).TooImprecise?
    ensures What3WordsHint(a).TooImprecise? ==> What3WordsHint(a).meters <= What3WordsHint(b).meters
  {
  }

  /** The two rules overlap: between 100 and 1000 metres the circle is drawn
      although the hint says the reading is too imprecise; from 1000 metres
      on there is neither a circle nor the app advice. */
  lemma HintAndCircle(accuracy: real)
    ensures HintThreshold < accuracy < CircleLimit ==>
      What3WordsHint(accuracy).TooImprecise? && DrawsCircle(accuracy)
    ensures accuracy >= CircleLimit ==>
      What3WordsHint(accuracy).TooImprecise? && !DrawsCircle(accuracy)
    ensures 0.0 < accuracy <= HintThreshold ==>
      What3WordsHint(accuracy) == UseApp && DrawsCircle(accuracy)
  {
  }
}

=== FILE: app.dfy ===
/**
 The state of the LocationApp object and the transitions of its event
 handlers: a location arriving or failing, the map being created, updated,
 centred and shown or hidden.

 Only the facts the decisions depend on are kept: the current reading, the
 `mapVisible` flag, whether a map handle exists, and how many accuracy
 circles the current map carries. The host (the document and the Leaflet
 library) is a parameter.
 */
module App {
  import opened Optional
  import Coordinates
  import Accuracy
  import Geolocation

  /** One location reading: degrees and an accuracy radius in metres. */
  datatype Reading = Reading(latitude: real, longitude: real, accuracy: real)

  /** `location` is this.currentLocation, `hasMap` says this.map is not null,
      and `circles` counts the accuracy circles added to the current map. */
  datatype AppState = AppState(location: Option<Reading>, mapVisible: bool, hasMap: bool, circles: nat)

  /** What the handlers find in the page: the map container, the toggle
      button, whether the Leaflet library has loaded, and whether creating a
      map succeeds. */
  datatype Host = Host(mapContainer: bool, toggleButton: bool, leafletLoaded: bool, mapCreationSucceeds: bool)

  /** The constructor: no reading, no map yet, the map shown. */
  const Initial: AppState := AppState(None, true, false, 0)

  /** Without a map there are no circles. */
  predicate NoOrphanCircles(s: AppState) {
    !s.hasMap ==> s.circles == 0
  }

  /** A hidden map has been removed, and a removed map carries no circles. */
  predicate Invariant(s: AppState) {
    && (!s.mapVisible ==> !s.hasMap)
    && NoOrphanCircles(s)
  }

  lemma InitialInvariant()
    ensures Invariant(Initial)
    ensures Initial.mapVisible && Initial.location == None
  {
  }

  // ---------------------------------------------------------------------------
  // Map creation

  /** The three ends of one initMap call. */
  datatype MapInit = RetryLater | Created | MapError

  datatype InitStep = InitStep(state: AppState, outcome: MapInit)

  /** One call of initMap. Without the container or the library it only
      schedules another attempt; a failing creation shows the map error and
      leaves the handle as it was; a successful one installs a fresh map. */
  function InitMap(s: AppState, host: Host): (r: InitStep)
    ensures r.outcome == RetryLater <==> !host.mapContainer || !host.leafletLoaded
    ensures r.outcome == Created <==>
      host.mapContainer && host.leafletLoaded && host.mapCreationSucceeds
    ensures r.outcome != Created ==> r.state == s
    ensures r.outcome == Created ==>
      r.state.hasMap && r.state.circles == 0 &&
      r.state.location == s.location && r.state.mapVisible == s.mapVisible
  {
    if !host.mapContainer || !host.leafletLoaded then InitStep(s, RetryLater)
    else if host.mapCreationSucceeds then InitStep(s.(hasMap := true, circles := 0), Created)
    else InitStep(s, MapError)
  }

  // ---------------------------------------------------------------------------
  // Showing and hiding the map

  /** toggleMap. With both elements present it flips `mapVisible`; hiding
      also removes the map. The map is rebuilt only later, by ShowDelayElapsed. */
  function ToggleMap(s: AppState, host: Host): (t: AppState)
    ensures !host.mapContainer || !host.toggleButton ==> t == s
    ensures host.mapContainer && host.toggleButton ==>
      t.mapVisible == !s.mapVisible && t.location == s.location
    ensures host.mapContainer && host.toggleButton && s.mapVisible ==>
      !t.hasMap && t.circles == 0
    ensures host.mapContainer && host.toggleButton && !s.mapVisible ==>
      t.hasMap == s.hasMap && t.circles == s.circles
  {
    if !host.mapContainer || !host.toggleButton then s
    else if s.mapVisible then s.(hasMap := false, circles := 0, mapVisible := false)
    else s.(mapVisible := true)
  }

  /** Hiding then showing brings back the shown flag, without a map. */
  lemma HideThenShow(s: AppState, host: Host)
    requires host.mapContainer && host.toggleButton
    requires s.mapVisible
    ensures ToggleMap(ToggleMap(s, host), host) == s.(hasMap := false, circles := 0)
  {
  }

  /** From a hidden state, showing then hiding gives the same state back. */
  lemma ShowThenHide(s: AppState, host: Host)
    requires Invariant(s)
    requires !s.mapVisible
    ensures ToggleMap(ToggleMap(s, host), host) == s
  {
  }

  // ---------------------------------------------------------------------------
  // Putting the reading on the map

  /** updateMap. Without a map or a reading nothing happens. Otherwise the
      view moves to the reading, the marker is replaced, a circle is added
      when the accuracy rule allows one (earlier circles are not removed),
      and a hidden map is shown. */
  function UpdateMap(s: AppState, host: Host): (t: AppState)
    ensures !s.hasMap || s.location == None ==> t == s
    ensures t.location == s.location
    ensures s.hasMap && s.location.Some? ==>
      (t.hasMap && t.circles == s.circles + (if Accuracy.DrawsCircle(s.location.value.accuracy) then 1 else 0))
    ensures s.hasMap && s.location.Some? ==>
      (t.mapVisible <==> s.mapVisible || (host.mapContainer && host.toggleButton))
  {
    if !s.hasMap || s.location == None then s
    else
      var added := if Accuracy.DrawsCircle(s.location.value.accuracy) then 1 else 0;
      var s1 := s.(circles := s.circles + added);
      if !s1.mapVisible then ToggleMap(s1, host) else s1
  }

  /** On a consistent state updateMap never needs to show the map, and it adds
      exactly the one circle the accuracy rule asks for. */
  lemma UpdateMapAddsOneCircle(s: AppState, host: Host)
    requires Invariant(s)
    requires s.hasMap && s.location.Some?
    ensures UpdateMap(s, host).mapVisible == s.mapVisible
    ensures UpdateMap(s, host).hasMap
    ensures UpdateMap(s, host).circles ==
      s.circles + (if Accuracy.DrawsCircle(s.location.value.accuracy) then 1 else 0)
  {
    assert s.mapVisible;
  }

  /** Circles pile up: two updates with a radius in (0, 1000) leave two more
      circles on the map. */
  lemma CirclesAccumulate(s: AppState, host: Host)
    requires Invariant(s)
    requires s.hasMap && s.location.Some?
    requires 0.0 < s.location.value.accuracy < Accuracy.CircleLimit
    ensures UpdateMap(UpdateMap(s, host), host).circles == s.circles + 2
  {
    UpdateMapAddsOneCircle(s, host);
    UpdateMapAddsOneCircle(UpdateMap(s, host), host);
  }

  /** The callback toggleMap schedules when it shows the map: initMap, then
      updateMap when a reading exists. */
  function ShowDelayElapsed(s: AppState, host: Host): (t: AppState)
    ensures t.location == s.location
    ensures s.mapVisible ==> t.mapVisible
    ensures host.mapContainer && host.leafletLoaded && host.mapCreationSucceeds ==> t.hasMap
    ensures !s.hasMap && (!host.mapContainer || !host.leafletLoaded) ==> t == s
    ensures host.mapContainer && host.leafletLoaded && host.mapCreationSucceeds && s.location.Some? ==>
      && t.circles == (if Accuracy.DrawsCircle(s.location.value.accuracy) then 1 else 0)
      && (t.mapVisible <==> s.mapVisible || host.toggleButton)
    ensures host.mapContainer && host.leafletLoaded && host.mapCreationSucceeds && s.location == None ==>
      t == s.(hasMap := true, circles := 0)
    ensures !(host.mapContainer && host.leafletLoaded && host.mapCreationSucceeds) ==> t == UpdateMap(s, host)
  {
    var r := InitMap(s, host);
    if r.state.location.Some? then UpdateMap(r.state, host) else r.state
  }

  /** Nothing cancels that callback: when the map was hidden again before it
      ran and a reading exists, it builds a map and, through updateMap, shows
      the map again. */
  lemma LateShowCallbackShowsMap(s: AppState, host: Host)
    requires !s.mapVisible && s.location.Some?
    requires host == Host(true, true, true, true)
    ensures ShowDelayElapsed(s, host).mapVisible
    ensures ShowDelayElapsed(s, host).hasMap
  {
    var r := InitMap(s, host);
    assert r.state.hasMap && !r.state.mapVisible;
  }

  // ---------------------------------------------------------------------------
  // Location callbacks

  /** onLocationSuccess: the reading replaces the previous one; the map is
      updated later, by DisplayDelayElapsed. */
  function OnLocationSuccess(s: AppState, reading: Reading): (t: AppState)
    ensures t.location == Some(reading)
    ensures t.mapVisible == s.mapVisible && t.hasMap == s.hasMap && t.circles == s.circles
  {
    s.(location := Some(reading))
  }

  /** The callback displayLocation schedules: updateMap. */
  function DisplayDelayElapsed(s: AppState, host: Host): (t: AppState)
    ensures t.location == s.location
    ensures !s.hasMap || s.location == None ==> t == s
    ensures s.hasMap && s.location.Some? ==>
      (t.hasMap && t.circles == s.circles + (if Accuracy.DrawsCircle(s.location.value.accuracy) then 1 else 0))
    ensures s.hasMap && s.location.Some? ==>
      (t.mapVisible <==> s.mapVisible || (host.mapContainer && host.toggleButton))
  {
    UpdateMap(s, host)
  }

  /** The outcome of onLocationError: the state and the message shown. */
  datatype ErrorShown = ErrorShown(state: AppState, message: string)

  /** onLocationError: a message is shown and the previous reading, if any,
      stays current. */
  function OnLocationError(s: AppState, code: int): (r: ErrorShown)
    ensures r.state == s
    ensures Geolocation.MessagePrefix <= r.message
    ensures r.message == Geolocation.ErrorMessage(code)
  {
    ErrorShown(s, Geolocation.ErrorMessage(code))
  }

  /** What displayLocation writes into the page besides the rendered text:
      both readings in DMS and the What3Words hint. */
  datatype Display = Display(latitude: Coordinates.DMS, longitude: Coordinates.DMS, hint: Accuracy.Hint)

  function DisplayLocation(reading: Reading): (d: Display)
    ensures Coordinates.IsReadingOf(d.latitude, reading.latitude, Coordinates.LatitudeTag)
    ensures Coordinates.IsReadingOf(d.longitude, reading.longitude, Coordinates.LongitudeTag)
    ensures -0.005 / 3600.0 <= Coordinates.SignedValue(d.latitude) - reading.latitude <= 0.005 / 3600.0
    ensures -0.005 / 3600.0 <= Coordinates.SignedValue(d.longitude) - reading.longitude <= 0.005 / 3600.0
    ensures d.hint.TooImprecise? <==> reading.accuracy > Accuracy.HintThreshold
    ensures d.hint.TooImprecise? ==> reading.accuracy - 0.5 < d.hint.meters as real <= reading.accuracy + 0.5
  {
    Coordinates.SignedValueWithinTolerance(reading.latitude, Coordinates.LatitudeTag);
    Coordinates.SignedValueWithinTolerance(reading.longitude, Coordinates.LongitudeTag);
    Display(
      Coordinates.DecimalToDMS(reading.latitude, Coordinates.LatitudeTag),
      Coordinates.DecimalToDMS(reading.longitude, Coordinates.LongitudeTag),
      Accuracy.What3WordsHint(reading.accuracy))
  }

  // ---------------------------------------------------------------------------
  // Centring

  const CenterError: string := "Kein Standort verfügbar zum Zentrieren der Karte."
  const ReadingZoom: int := 15

  datatype Centering = NothingToCenter(message: string) | Centered(latitude: real, longitude: real, zoom: int)

  /** centerMap: it needs both a map and a reading. */
  function CenterMap(s: AppState): (r: Centering)
    ensures r.Centered? <==> s.hasMap && s.location.Some?
    ensures r.NothingToCenter? ==> r.message == CenterError
    ensures r.Centered? ==>
      r.latitude == s.location.value.latitude &&
      r.longitude == s.location.value.longitude && r.zoom == ReadingZoom
  {
    if !s.hasMap || s.location == None then NothingToCenter(CenterError)
    else Centered(s.location.value.latitude, s.location.value.longitude, ReadingZoom)
  }

  // ---------------------------------------------------------------------------
  // The invariant is kept by every handler

  /** Every handler keeps the invariant, initMap when called on a shown map
      (as it is, by the constructor and by the callback of showing). */
  lemma HandlersKeepInvariant(s: AppState, host: Host, reading: Reading, code: int)
    requires Invariant(s)
    ensures Invariant(ToggleMap(s, host))
    ensures Invariant(UpdateMap(s, host))
    ensures Invariant(OnLocationSuccess(s, reading))
    ensures Invariant(OnLocationError(s, code).state)
    ensures s.mapVisible ==> Invariant(InitMap(s, host).state)
    ensures s.mapVisible ==> Invariant(ShowDelayElapsed(s, host))
  {
    if s.hasMap && s.location.Some? {
      UpdateMapAddsOneCircle(s, host);
    }
    var r := InitMap(s, host);
    if s.mapVisible && r.state.location.Some? && r.state.hasMap {
      UpdateMapAddsOneCircle(r.state, host);
    }
  }
}

=== FILE: coordinates.dfy ===
/**
 The coordinate formatter of the location app: conversion of a signed
 decimal-degree value into degrees, minutes, seconds and a hemisphere letter
 (LocationApp.decimalToDMS in script.js).

 Arithmetic is over exact reals. The source renders the result as the text
 `D° M' S" H`; this model returns the four components as a record instead.
 */
module Coordinates {

  /** Hemisphere letters as the app writes them: N/S for latitude, and
      O (German "Ost", east) / W for everything else. */
  datatype Direction = N | S | O | W

  /** A degrees/minutes/seconds reading. `seconds` carries two decimals. */
  datatype DMS = DMS(degrees: int, minutes: int, seconds: real, dir: Direction)

  /** The axis tag the app passes for latitudes; any other tag means longitude. */
  const LatitudeTag: string := "lat"
  /** The tag the app passes for longitudes. */
  const LongitudeTag: string := "lng"

  /** Math.abs */
  function Abs(x: real): (r: real)
    ensures r >= 0.0
    ensures r == x || r == -x
  {
    if x < 0.0 then -x else x
  }

  /** Math.round: rounds half-way cases towards positive infinity. */
  function Round(x: real): (n: int)
    ensures x - 0.5 < n as real <= x + 0.5
  {
    (x + 0.5).Floor
  }

  /** True when x has at most two decimals. */
  predicate IsHundredths(x: real) {
    (x * 100.0).Floor as real == x * 100.0
  }

  /** Math.round(y * 100) / 100: y rounded to two decimals. */
  function RoundHundredths(y: real): (r: real)
    ensures IsHundredths(r)
    ensures y - 0.005 < r <= y + 0.005
  {
    var n := Round(y * 100.0);
    assert (n as real / 100.0) * 100.0 == n as real;
    n as real / 100.0
  }

  /** The hemisphere letters with a negative sign. */
  predicate IsNegative(d: Direction) {
    d == S || d == W
  }

  /** The letters the app may choose for the given axis tag. */
  predicate ForAxis(d: Direction, axis: string) {
    if axis == LatitudeTag then d == N || d == S else d == O || d == W
  }

  /** The angle a reading denotes, without its sign. */
  function Magnitude(d: DMS): real {
    d.degrees as real + d.minutes as real / 60.0 + d.seconds / 3600.0
  }

  /** The signed decimal-degree value a reading denotes. */
  function SignedValue(d: DMS): real {
    if IsNegative(d.dir) then -Magnitude(d) else Magnitude(d)
  }

  /** The seconds before rounding: the exact remainder of |decimal| after
      whole degrees and whole minutes, times 3600. */
  function RawSeconds(absolute: real): real {
    var degrees := absolute.Floor;
    var minutesFloat := (absolute - degrees as real) * 60.0;
    (minutesFloat - minutesFloat.Floor as real) * 60.0
  }

  /** The shape of a conversion of `decimal` for the given axis tag. */
  predicate IsReadingOf(r: DMS, decimal: real, axis: string) {
    // degrees is the whole part of |decimal|
    && 0 <= r.degrees
    && r.degrees as real <= Abs(decimal) < r.degrees as real + 1.0
    // minutes is a whole number of minutes below one degree
    && 0 <= r.minutes <= 59
    && r.minutes == ((Abs(decimal) - r.degrees as real) * 60.0).Floor
    // seconds has two decimals and may reach 60: there is no carry
    && IsHundredths(r.seconds)
    && 0.0 <= r.seconds <= 60.0
    // the hemisphere follows the sign, zero counting as positive
    && ForAxis(r.dir, axis)
    && (IsNegative(r.dir) <==> decimal < 0.0)
  }

  /** decimalToDMS(decimal, type). */
  function DecimalToDMS(decimal: real, axis: string): (r: DMS)
    ensures IsReadingOf(r, decimal, axis)
  {
    var absolute := Abs(decimal);
    var degrees := absolute.Floor;
    var minutesFloat := (absolute - degrees as real) * 60.0;
    var minutes := minutesFloat.Floor;
    var seconds := RoundHundredths((minutesFloat - minutes as real) * 60.0);
    var direction :=
      if axis == LatitudeTag then (if decimal >= 0.0 then N else S)
      else (if decimal >= 0.0 then O else W);
    DMS(degrees, minutes, seconds, direction)
  }

  /** The exact decomposition: |decimal| is whole degrees, whole minutes and
      the unrounded seconds. */
  lemma ExactDecomposition(decimal: real)
    ensures var r := DecimalToDMS(decimal, LatitudeTag);
      Abs(decimal) == r.degrees as real + r.minutes as real / 60.0 + RawSeconds(Abs(decimal)) / 3600.0
    ensures var r := DecimalToDMS(decimal, LatitudeTag);
      RawSeconds(Abs(decimal)) - 0.005 < r.seconds <= RawSeconds(Abs(decimal)) + 0.005
  {
    var absolute := Abs(decimal);
    var degrees := absolute.Floor;
    var minutesFloat := (absolute - degrees as real) * 60.0;
    var minutes := minutesFloat.Floor;
    var raw := (minutesFloat - minutes as real) * 60.0;
    assert raw == RawSeconds(absolute);
    assert minutesFloat == minutes as real + raw / 60.0;
    assert absolute == degrees as real + minutesFloat / 60.0;
  }

  /** The axis tag only chooses the letters, never the numbers. */
  lemma AxisOnlyChoosesLetters(decimal: real, axis: string)
    ensures DecimalToDMS(decimal, axis).degrees == DecimalToDMS(decimal, LatitudeTag).degrees
    ensures DecimalToDMS(decimal, axis).minutes == DecimalToDMS(decimal, LatitudeTag).minutes
    ensures DecimalToDMS(decimal, axis).seconds == DecimalToDMS(decimal, LatitudeTag).seconds
  {
  }

  /** Reading the components back gives |decimal| to within half a
      hundredth of an arc second. */
  lemma MagnitudeWithinTolerance(decimal: real, axis: string)
    ensures -0.005 / 3600.0 < Magnitude(DecimalToDMS(decimal, axis)) - Abs(decimal) <= 0.005 / 3600.0
  {
    ExactDecomposition(decimal);
    AxisOnlyChoosesLetters(decimal, axis);
  }

  /** With its hemisphere letter, the reading gives back the signed input to
      within the same tolerance. */
  lemma SignedValueWithinTolerance(decimal: real, axis: string)
    ensures -0.005 / 3600.0 <= SignedValue(DecimalToDMS(decimal, axis)) - decimal <= 0.005 / 3600.0
  {
    MagnitudeWithinTolerance(decimal, axis);
  }

  /** A value and its negation get the same numbers and opposite letters. */
  lemma MirrorImage(x: real, axis: string)
    requires x > 0.0
    ensures DecimalToDMS(-x, axis).degrees == DecimalToDMS(x, axis).degrees
    ensures DecimalToDMS(-x, axis).minutes == DecimalToDMS(x, axis).minutes
    ensures DecimalToDMS(-x, axis).seconds == DecimalToDMS(x, axis).seconds
    ensures !IsNegative(DecimalToDMS(x, axis).dir) && IsNegative(DecimalToDMS(-x, axis).dir)
  {
  }

  /** A reading the conversion can produce exactly: seconds below 60 with two
      decimals, letters of the axis, and no negative letter on a zero angle. */
  predicate Canonical(d: DMS, axis: string) {
    && 0 <= d.degrees
    && 0 <= d.minutes <= 59
    && 0.0 <= d.seconds < 60.0
    && IsHundredths(d.seconds)
    && ForAxis(d.dir, axis)
    && (IsNegative(d.dir) ==> Magnitude(d) > 0.0)
  }

  lemma FloorOf(x: real, k: int)
    requires k as real <= x < k as real + 1.0
    ensures x.Floor == k
  {
  }

  /** Converting the value a canonical reading denotes gives the reading back. */
  lemma RoundTrip(d: DMS, axis: string)
    requires Canonical(d, axis)
    ensures DecimalToDMS(SignedValue(d), axis) == d
  {
    var absolute := Magnitude(d);
    assert Abs(SignedValue(d)) == absolute;
    var rest := d.minutes as real / 60.0 + d.seconds / 3600.0;
    assert 0.0 <= rest < 1.0;
    FloorOf(absolute, d.degrees);
    var minutesFloat := (absolute - d.degrees as real) * 60.0;
    assert minutesFloat == d.minutes as real + d.seconds / 60.0;
    FloorOf(minutesFloat, d.minutes);
    var raw := (minutesFloat - d.minutes as real) * 60.0;
    assert raw == d.seconds;
    var n := (d.seconds * 100.0).Floor;
    FloorOf(raw * 100.0 + 0.5, n);
    assert RoundHundredths(raw) == d.seconds;
    var r := DecimalToDMS(SignedValue(d), axis);
    assert r.degrees == d.degrees && r.minutes == d.minutes && r.seconds == d.seconds;
    assert IsNegative(r.dir) == IsNegative(d.dir);
  }

  /** Seconds that round up to 60 stay at 60: an input 59.996 arc seconds
      past a whole minute yields DMS(0, 0, 60.0, N), printed as 0° 0' 60" N. */
  lemma SecondsReachSixty()
    ensures DecimalToDMS(59.996 / 3600.0, LatitudeTag) == DMS(0, 0, 60.0, N)
  {
    var x := 59.996 / 3600.0;
    FloorOf(x, 0);
    FloorOf(x * 60.0, 0);
    assert RawSeconds(x) == 59.996;
    FloorOf(59.996 * 100.0 + 0.5, 6000);
  }

  /** The uncarried 60 occurs for every input whose unrounded seconds are
      59.995 or more, and for no other. */
  lemma SecondsSixtyExactly(decimal: real, axis: string)
    ensures DecimalToDMS(decimal, axis).seconds == 60.0 <==> RawSeconds(Abs(decimal)) >= 59.995
  {
    ExactDecomposition(decimal);
    AxisOnlyChoosesLetters(decimal, axis);
  }

  /** The worked readings: 52.5 N, 52.5 S, 13.405 O and zero. */
  lemma Examples()
    ensures DecimalToDMS(52.5, LatitudeTag) == DMS(52, 30, 0.0, N)
    ensures DecimalToDMS(-52.5, LatitudeTag) == DMS(52, 30, 0.0, S)
    ensures DecimalToDMS(13.405, LongitudeTag) == DMS(13, 24, 18.0, O)
    ensures DecimalToDMS(0.0, LatitudeTag) == DMS(0, 0, 0.0, N)
  {
    RoundTrip(DMS(52, 30, 0.0, N), LatitudeTag);
    RoundTrip(DMS(52, 30, 0.0, S), LatitudeTag);
    RoundTrip(DMS(13, 24, 18.0, O), LongitudeTag);
    RoundTrip(DMS(0, 0, 0.0, N), LatitudeTag);
  }
}

=== FILE: events.dfy ===
/**
 The app as an event-driven machine: the callbacks the browser delivers,
 applied one after another to the app state. Every handler of LocationApp
 that changes the state is one event; clicks that only read the state
 (centring, sharing) are events that leave it alone.
 */
module Events {
  import opened Optional
  import App

  datatype Event =
    | LocationSucceeded(reading: App.Reading)  // onLocationSuccess
    | LocationFailed(code: int)                // onLocationError
    | ToggleClicked(host: App.Host)            // toggleMap
    | ShowTimerFired(host: App.Host)           // the callback toggleMap schedules when showing
    | DisplayTimerFired(host: App.Host)        // the callback displayLocation schedules
    | MapInitAttempt(host: App.Host)           // initMap, from the constructor or a retry
    | CenterClicked                            // centerMap
    | ShareClicked                             // shareLocation

  function Step(s: App.AppState, e: Event): (t: App.AppState)
    ensures e.LocationSucceeded? ==> t.location == Some(e.reading)
    ensures !e.LocationSucceeded? ==> t.location == s.location
  {
    match e
    case LocationSucceeded(reading) => App.OnLocationSuccess(s, reading)
    case LocationFailed(code) => App.OnLocationError(s, code).state
    case ToggleClicked(host) => App.ToggleMap(s, host)
    case ShowTimerFired(host) => App.ShowDelayElapsed(s, host)
    case DisplayTimerFired(host) => App.DisplayDelayElapsed(s, host)
    case MapInitAttempt(host) => App.InitMap(s, host).state
    case CenterClicked => s
    case ShareClicked => s
  }

  /** Every single event keeps App.NoOrphanCircles. Unlike App.Invariant this
      holds whatever order the callbacks arrive in. */
  lemma StepKeepsNoOrphanCircles(s: App.AppState, e: Event)
    ensures App.NoOrphanCircles(s) ==> App.NoOrphanCircles(Step(s, e))
  {
    match e
    case DisplayTimerFired(host) =>
      if s.hasMap && s.location.Some? {
        assert App.UpdateMap(s, host).hasMap;
      }
    case ShowTimerFired(host) =>
      var r := App.InitMap(s, host);
      if r.state.hasMap && r.state.location.Some? {
        assert App.UpdateMap(r.state, host).hasMap;
      }
    case _ =>
  }

  /** The state after the events, in order. Once a reading exists it is never
      cleared, and no event leaves circles without a map. */
  function Run(s: App.AppState, events: seq<Event>): (t: App.AppState)
    ensures s.location.Some? ==> t.location.Some?
    ensures App.NoOrphanCircles(s) ==> App.NoOrphanCircles(t)
    decreases |events|
  {
    if |events| == 0 then s
    else
      StepKeepsNoOrphanCircles(s, events[0]);
      var s1 := Step(s, events[0]);
      Run(s1, events[1..])
  }

  /** Running a trace followed by one more event is running the trace and
      then taking that step. */
  lemma {:induction false} RunSnoc(s: App.AppState, events: seq<Event>, e: Event)
    ensures Run(s, events + [e]) == Step(Run(s, events), e)
    decreases |events|
  {
    if |events| == 0 {
      assert events + [e] == [e];
    } else {
      assert (events + [e])[1..] == events[1..] + [e];
      RunSnoc(Step(s, events[0]), events[1..], e);
    }
  }

  /** The reference: the reading of the last successful callback in the
      trace, or the initial reading when there is none. */
  function LatestReading(events: seq<Event>, initial: Option<App.Reading>): Option<App.Reading>
    decreases |events|
  {
    if |events| == 0 then initial
    else if events[|events| - 1].LocationSucceeded? then Some(events[|events| - 1].reading)
    else LatestReading(events[..|events| - 1], initial)
  }

  /** The current reading is always the latest successful one: errors,
      clicks and timers never replace or clear it. */
  lemma {:induction false} CurrentReadingIsLatest(s: App.AppState, events: seq<Event>)
    ensures Run(s, events).location == LatestReading(events, s.location)
    decreases |events|
  {
    if |events| > 0 {
      var init, last := events[..|events| - 1], events[|events| - 1];
      assert events == init + [last];
      RunSnoc(s, init, last);
      CurrentReadingIsLatest(s, init);
    }
  }

  /** Whether every callback that may build a map (initMap and the show
      callback) finds the map shown. The code does not enforce this: a show
      callback can still be pending when the user hides the map again. */
  predicate MapBuiltOnlyWhenShown(s: App.AppState, events: seq<Event>)
    decreases |events|
  {
    if |events| == 0 then true
    else
      && (events[0].ShowTimerFired? || events[0].MapInitAttempt? ==> s.mapVisible)
      && MapBuiltOnlyWhenShown(Step(s, events[0]), events[1..])
  }

  /** When maps are built only while shown, a hidden map stays removed
      through the whole trace. */
  lemma {:induction false} RunKeepsInvariant(s: App.AppState, events: seq<Event>)
    requires App.Invariant(s)
    requires MapBuiltOnlyWhenShown(s, events)
    ensures App.Invariant(Run(s, events))
    decreases |events|
  {
    if |events| > 0 {
      var e := events[0];
      var reading := if e.LocationSucceeded? then e.reading else App.Reading(0.0, 0.0, 0.0);
      var code := if e.LocationFailed? then e.code else 0;
      var host := if e.ToggleClicked? || e.ShowTimerFired? || e.DisplayTimerFired? || e.MapInitAttempt?
        then e.host else App.Host(false, false, false, false);
      App.HandlersKeepInvariant(s, host, reading, code);
      RunKeepsInvariant(Step(s, e), events[1..]);
    }
  }

  /** Without that discipline the late callback overrides the user: hiding
      the map while a show callback is pending leaves a map built, and shown,
      by the late callback although the user's last action hid it. */
  lemma LateCallbackBreaksDiscipline(r: App.Reading)
    ensures var ok := App.Host(true, true, true, true);
      var s := App.Initial.(location := Some(r));
      var events := [ToggleClicked(ok), ToggleClicked(ok), ToggleClicked(ok), ShowTimerFired(ok)];
      !MapBuiltOnlyWhenShown(s, events) && Run(s, events).mapVisible && Run(s, events).hasMap
  {
    var ok := App.Host(true, true, true, true);
    var s := App.Initial.(location := Some(r));
    var events := [ToggleClicked(ok), ToggleClicked(ok), ToggleClicked(ok), ShowTimerFired(ok)];
    var s1 := Step(s, ToggleClicked(ok));
    var s2 := Step(s1, ToggleClicked(ok));
    var s3 := Step(s2, ToggleClicked(ok));
    assert !s3.mapVisible;
    App.LateShowCallbackShowsMap(s3, ok);
    assert events[1..] == [ToggleClicked(ok), ToggleClicked(ok), ShowTimerFired(ok)];
    assert events[1..][1..] == [ToggleClicked(ok), ShowTimerFired(ok)];
    assert events[1..][1..][1..] == [ShowTimerFired(ok)];
    assert events[1..][1..][1..][1..] == [];
    assert Run(s3, [ShowTimerFired(ok)]) == Step(s3, ShowTimerFired(ok));
    assert Run(s, events) == Run(s3, [ShowTimerFired(ok)]) by {
      assert Run(s, events) == Run(s1, events[1..]);
      assert Run(s1, events[1..]) == Run(s2, events[1..][1..]);
      assert Run(s2, events[1..][1..]) == Run(s3, events[1..][1..][1..]);
    }
    assert !MapBuiltOnlyWhenShown(s3, [ShowTimerFired(ok)]);
    assert MapBuiltOnlyWhenShown(s, events) == MapBuiltOnlyWhenShown(s3, [ShowTimerFired(ok)]) by {
      assert MapBuiltOnlyWhenShown(s, events) == MapBuiltOnlyWhenShown(s1, events[1..]);
      assert MapBuiltOnlyWhenShown(s1, events[1..]) == MapBuiltOnlyWhenShown(s2, events[1..][1..]);
      assert MapBuiltOnlyWhenShown(s2, events[1..][1..]) == MapBuiltOnlyWhenShown(s3, events[1..][1..][1..]);
    }
  }

  /** Without a reading the same trace breaks the invariant: the late callback
      builds a map and leaves it behind the hidden container. So
      RunKeepsInvariant needs its discipline. */
  lemma LateCallbackWithoutReadingBreaksInvariant()
    ensures var ok := App.Host(true, true, true, true);
      var events := [ToggleClicked(ok), ToggleClicked(ok), ToggleClicked(ok), ShowTimerFired(ok)];
      App.Invariant(App.Initial) && !App.Invariant(Run(App.Initial, events))
  {
    var ok := App.Host(true, true, true, true);
    var s := App.Initial;
    var events := [ToggleClicked(ok), ToggleClicked(ok), ToggleClicked(ok), ShowTimerFired(ok)];
    var s1 := Step(s, ToggleClicked(ok));
    var s2 := Step(s1, ToggleClicked(ok));
    var s3 := Step(s2, ToggleClicked(ok));
    assert !s3.mapVisible && s3.location == None;
    var s4 := Step(s3, ShowTimerFired(ok));
    assert s4.hasMap && !s4.mapVisible;
    assert events[1..] == [ToggleClicked(ok), ToggleClicked(ok), ShowTimerFired(ok)];
    assert events[1..][1..] == [ToggleClicked(ok), ShowTimerFired(ok)];
    assert events[1..][1..][1..] == [ShowTimerFired(ok)];
    assert events[1..][1..][1..][1..] == [];
    assert Run(s3, [ShowTimerFired(ok)]) == s4;
    assert Run(s, events) == Run(s3, [ShowTimerFired(ok)]) by {
      assert Run(s, events) == Run(s1, events[1..]);
      assert Run(s1, events[1..]) == Run(s2, events[1..][1..]);
      assert Run(s2, events[1..][1..]) == Run(s3, events[1..][1..][1..]);
    }
  }
}

=== FILE: geolocation.dfy ===
/**
 Acquiring a location: the guard in getCurrentLocation, the options passed to
 the geolocation provider, and the mapping of a provider error code to the
 message shown to the user (onLocationError).
 */
module Geolocation {

  /** The error codes of the GeolocationPositionError interface of the W3C
      Geolocation API. */
  const PermissionDeniedCode: int := 1
  const PositionUnavailableCode: int := 2
  const TimeoutCode: int := 3

  /** The options of the single position request. */
  datatype PositionOptions = PositionOptions(enableHighAccuracy: bool, timeoutMs: nat, maximumAgeMs: nat)

  /** What a click on the location button does. */
  datatype Request =
    | Unsupported(message: string)
    | Requested(options: PositionOptions)

  const UnsupportedMessage: string := "Geolocation wird von diesem Browser nicht unterstützt."

  /** getCurrentLocation: without a geolocation provider only an error is
      shown; otherwise one fresh, high-accuracy reading is asked for with a
      ten-second timeout. */
  function RequestLocation(providerPresent: bool): (r: Request)
    ensures r.Requested? <==> providerPresent
    ensures r.Unsupported? ==> r.message == UnsupportedMessage
    ensures r.Requested? ==> r.options.enableHighAccuracy
    ensures r.Requested? ==> r.options.timeoutMs == 10000
    ensures r.Requested? ==> r.options.maximumAgeMs == 0
  {
    if !providerPresent then Unsupported(UnsupportedMessage)
    else Requested(PositionOptions(true, 10000, 0))
  }

  /** The message kinds of onLocationError. */
  datatype ErrorKind = PermissionDenied | PositionUnavailable | Timeout | UnknownError

  /** The switch on error.code; every code other than the three known ones
      falls to the default branch. */
  function KindOfCode(code: int): (k: ErrorKind)
  {
    if code == PermissionDeniedCode then PermissionDenied
    else if code == PositionUnavailableCode then PositionUnavailable
    else if code == TimeoutCode then Timeout
    else UnknownError
  }

  /** The code the provider uses for a kind; the unknown kind has none. */
  function CodeOfKind(k: ErrorKind): (c: int)
    requires k != UnknownError
  {
    match k
    case PermissionDenied => PermissionDeniedCode
    case PositionUnavailable => PositionUnavailableCode
    case Timeout => TimeoutCode
  }

  /** Every known code selects its own kind, and exactly the other codes
      select the unknown kind. */
  lemma KindOfCodeSpec(code: int)
    ensures KindOfCode(code) != UnknownError ==> CodeOfKind(KindOfCode(code)) == code
    ensures KindOfCode(code) == UnknownError <==>
      code != PermissionDeniedCode && code != PositionUnavailableCode && code != TimeoutCode
  {
  }

  /** The kind of a known kind's code is that kind. */
  lemma CodeOfKindRoundTrip(k: ErrorKind)
    requires k != UnknownError
    ensures KindOfCode(CodeOfKind(k)) == k
  {
  }

  const MessagePrefix: string := "Fehler beim Abrufen des Standorts: "

  function Reason(k: ErrorKind): string {
    match k
    case PermissionDenied => "Standortzugriff wurde verweigert."
    case PositionUnavailable => "Standortinformationen sind nicht verfügbar."
    case Timeout => "Zeitüberschreitung beim Abrufen des Standorts."
    case UnknownError => "Ein unbekannter Fehler ist aufgetreten."
  }

  /** The text onLocationError shows for an error code. */
  function ErrorMessage(code: int): (m: string)
    ensures MessagePrefix <= m
    ensures |m| > |MessagePrefix|
  {
    MessagePrefix + Reason(KindOfCode(code))
  }

  /** Distinct kinds give distinct texts, so the message tells the user which
      of the four cases occurred. */
  lemma ReasonsDistinct(a: ErrorKind, b: ErrorKind)
    ensures Reason(a) == Reason(b) <==> a == b
  {
    if a != b {
      // the four texts have four different lengths
      assert |Reason(a)| != |Reason(b)|;
    }
  }

  /** Two codes give the same message exactly when they select the same kind. */
  lemma ErrorMessageDistinguishesKinds(c1: int, c2: int)
    ensures ErrorMessage(c1) == ErrorMessage(c2) <==> KindOfCode(c1) == KindOfCode(c2)
  {
    var m1, m2 := ErrorMessage(c1), ErrorMessage(c2);
    if m1 == m2 {
      assert m1[|MessagePrefix|..] == Reason(KindOfCode(c1));
      assert m2[|MessagePrefix|..] == Reason(KindOfCode(c2));
      ReasonsDistinct(KindOfCode(c1), KindOfCode(c2));
    }
  }
}

=== FILE: optional.dfy ===
/** A value that may be missing: JavaScript's `null` for an object field. */
module Optional {

  datatype Option<+T> = None | Some(value: T)
}

=== FILE: sharing.dfy ===
/**
 The fallback chains of sharing and copying: shareLocation / fallbackShare
 (native share sheet, else clipboard, else a modal with the text) and
 copyToClipboard / fallbackCopyToClipboard (clipboard API, else the
 document's copy command).

 The browser APIs are parameters: which of them exist, and whether the
 asynchronous call made through them succeeds.
 */
module Sharing {
  import opened Optional
  import Coordinates
  import App

  /** Which sharing APIs the browser offers: navigator.share and navigator.clipboard. */
  datatype Capabilities = Capabilities(share: bool, clipboard: bool)

  /** Which mechanism shareLocation and fallbackShare try first. */
  datatype SharePath = NativeShare | ClipboardCopy | ManualModal

  /** shareLocation followed by fallbackShare: native share when available,
      otherwise the clipboard, otherwise the modal. */
  function ShareRoute(caps: Capabilities): (p: SharePath)
    ensures p == NativeShare <==> caps.share
    ensures p == ClipboardCopy <==> !caps.share && caps.clipboard
    ensures p == ManualModal <==> !caps.share && !caps.clipboard
  {
    if caps.share then NativeShare
    else if caps.clipboard then ClipboardCopy
    else ManualModal
  }

  /** The content of the shared message: title, the reading in decimal and
      in DMS, and the accuracy rounded to whole metres. */
  datatype ShareData = ShareData(
    title: string,
    reading: App.Reading,
    latitude: Coordinates.DMS,
    longitude: Coordinates.DMS,
    accuracyMeters: int)

  const ShareTitle: string := "Mein Standort"

  function ShareDataOf(reading: App.Reading): (d: ShareData)
    ensures d.title == ShareTitle && d.reading == reading
    ensures Coordinates.IsReadingOf(d.latitude, reading.latitude, Coordinates.LatitudeTag)
    ensures Coordinates.IsReadingOf(d.longitude, reading.longitude, Coordinates.LongitudeTag)
    ensures -0.005 / 3600.0 <= Coordinates.SignedValue(d.latitude) - reading.latitude <= 0.005 / 3600.0
    ensures -0.005 / 3600.0 <= Coordinates.SignedValue(d.longitude) - reading.longitude <= 0.005 / 3600.0
    ensures reading.accuracy - 0.5 < d.accuracyMeters as real <= reading.accuracy + 0.5
  {
    Coordinates.SignedValueWithinTolerance(reading.latitude, Coordinates.LatitudeTag);
    Coordinates.SignedValueWithinTolerance(reading.longitude, Coordinates.LongitudeTag);
    ShareData(
      ShareTitle,
      reading,
      Coordinates.DecimalToDMS(reading.latitude, Coordinates.LatitudeTag),
      Coordinates.DecimalToDMS(reading.longitude, Coordinates.LongitudeTag),
      Coordinates.Round(reading.accuracy))
  }

  /** How a share ends. A rejected native share is only logged. */
  datatype Delivery = SharedNatively | ShareRejected | CopiedWithAlert | ShownInModal

  datatype ShareOutcome = NoLocation | Delivered(delivery: Delivery, data: ShareData)

  /** shareLocation. `apiSucceeds` is how the promise of the API used ends
      (navigator.share or clipboard.writeText); it is irrelevant to the modal. */
  function ShareLocation(location: Option<App.Reading>, caps: Capabilities, apiSucceeds: bool): (r: ShareOutcome)
    ensures r == NoLocation <==> location == None
    ensures r.Delivered? ==> r.data == ShareDataOf(location.value)
    ensures r.Delivered? ==> (r.delivery == SharedNatively <==> caps.share && apiSucceeds)
    ensures r.Delivered? ==> (r.delivery == ShareRejected <==> caps.share && !apiSucceeds)
    ensures r.Delivered? ==> (r.delivery == CopiedWithAlert <==> !caps.share && caps.clipboard && apiSucceeds)
    ensures r.Delivered? ==> (r.delivery == ShownInModal <==> !caps.share && (!caps.clipboard || !apiSucceeds))
  {
    if location == None then NoLocation
    else
      var data := ShareDataOf(location.value);
      match ShareRoute(caps)
      case NativeShare => Delivered(if apiSucceeds then SharedNatively else ShareRejected, data)
      case ClipboardCopy => Delivered(if apiSucceeds then CopiedWithAlert else ShownInModal, data)
      case ManualModal => Delivered(ShownInModal, data)
  }

  /** The modal is the last resort: it appears exactly when there is a
      reading, no share sheet, and the clipboard is missing or fails. */
  lemma ModalIsLastResort(location: Option<App.Reading>, caps: Capabilities, apiSucceeds: bool)
    ensures ShareLocation(location, caps, apiSucceeds).Delivered? &&
            ShareLocation(location, caps, apiSucceeds).delivery == ShownInModal
      <==> location.Some? && !caps.share && (!caps.clipboard || !apiSucceeds)
  {
  }

  /** Once the share sheet exists it is the only path: its failure falls back
      neither to the clipboard nor to the modal. */
  lemma NoFallbackAfterShareSheet(location: Option<App.Reading>, caps: Capabilities, apiSucceeds: bool)
    requires location.Some? && caps.share
    ensures ShareLocation(location, caps, apiSucceeds).delivery in {SharedNatively, ShareRejected}
  {
  }

  /** Every path carries the same message: the one built from the current reading. */
  lemma SameMessageOnEveryPath(r: App.Reading, c1: Capabilities, ok1: bool, c2: Capabilities, ok2: bool)
    ensures ShareLocation(Some(r), c1, ok1).data == ShareLocation(Some(r), c2, ok2).data
  {
  }

  /** The state-level handler: without a current reading shareLocation does
      nothing. */
  function ShareFromState(s: App.AppState, caps: Capabilities, apiSucceeds: bool): (r: ShareOutcome)
    ensures s.location == None ==> r == NoLocation
    ensures s.location.Some? ==> r.Delivered? && r.data.reading == s.location.value
  {
    ShareLocation(s.location, caps, apiSucceeds)
  }

  // ---------------------------------------------------------------------------
  // Copying one field

  const GoogleMapsField: string := "googleMaps"

  /** The text copyToClipboard takes from an element: its text, except that
      for the Google Maps field the link's address wins when a link exists. */
  function TextToCopy(elementId: string, textContent: string, linkHref: Option<string>): (t: string)
    ensures elementId == GoogleMapsField && linkHref.Some? ==> t == linkHref.value
    ensures elementId != GoogleMapsField || linkHref == None ==> t == textContent
  {
    if elementId == GoogleMapsField && linkHref.Some? then linkHref.value else textContent
  }

  /** The ends of document.execCommand('copy'): true, false, or an exception. */
  datatype ExecResult = ExecCopied | ExecRefused | ExecThrew

  /** The ends of a copy: the green feedback, or one of two alerts. */
  datatype CopyOutcome = CopyFeedback(text: string) | AlertCopyFailed | AlertCopyImpossible

  /** fallbackCopyToClipboard. */
  function FallbackCopy(text: string, exec: ExecResult): (r: CopyOutcome)
    ensures r.CopyFeedback? <==> exec == ExecCopied
    ensures r == AlertCopyFailed <==> exec == ExecRefused
    ensures r.CopyFeedback? ==> r.text == text
  {
    match exec
    case ExecCopied => CopyFeedback(text)
    case ExecRefused => AlertCopyFailed
    case ExecThrew => AlertCopyImpossible
  }

  /** copyToClipboard. `writeSucceeds` is how clipboard.writeText ends; the
      copy command is used only when that API is missing or fails. */
  function CopyToClipboard(
    elementId: string, textContent: string, linkHref: Option<string>,
    clipboard: bool, writeSucceeds: bool, exec: ExecResult): (r: CopyOutcome)
    ensures r.CopyFeedback? ==> r.text == TextToCopy(elementId, textContent, linkHref)
    ensures r == AlertCopyFailed <==> !(clipboard && writeSucceeds) && exec == ExecRefused
    ensures r == AlertCopyImpossible <==> !(clipboard && writeSucceeds) && exec == ExecThrew
  {
    var text := TextToCopy(elementId, textContent, linkHref);
    if clipboard && writeSucceeds then CopyFeedback(text)
    else FallbackCopy(text, exec)
  }

  /** The copy is confirmed exactly when one of the two mechanisms works;
      an alert appears only when both were tried or unavailable. */
  lemma CopyConfirmedIff(
    elementId: string, textContent: string, linkHref: Option<string>,
    clipboard: bool, writeSucceeds: bool, exec: ExecResult)
    ensures CopyToClipboard(elementId, textContent, linkHref, clipboard, writeSucceeds, exec).CopyFeedback?
      <==> (clipboard && writeSucceeds) || exec == ExecCopied
    ensures clipboard && writeSucceeds ==>
      CopyToClipboard(elementId, textContent, linkHref, clipboard, writeSucceeds, exec)
        == CopyToClipboard(elementId, textContent, linkHref, clipboard, writeSucceeds, ExecThrew)
  {
  }
}
